=== FILE: README.md ===
# phpipam-pyez, modelled in Dafny

phpipam-pyez is a small Python client for the phpIPAM IP-address manager.
This project models the client's own local bookkeeping, with the HTTP
transport and the HTML parser abstracted away:

- **The record indexer.** `PhpIpamClient.index` and its copy `create_index`
  turn a list of records (JSON objects) into a dictionary keyed by one of three
  key forms: a field name, a tuple of field names, or a callable. A later record
  with the same key overwrites an earlier one. Any other key form raises
  `ValueError`. The model is `Indexing` and `Utils.CreateIndex`.
- **The controller tree.** `client.devices`, `client.tools._locations` and the
  like are proxies for API paths. They are created on first access and
  memoised. Each proxy:
  - issues a verb call against its own path plus a suffix;
  - keeps a catalog of the records it last fetched;
  - answers `controller[k]` from that catalog.

  The client's `login` stores the API token, then logs in to the web UI.
  The model is `Client.Controller` and `Client.PhpIpamClient`, over the
  sessions of `Http`.
- **`expand_ids`.** This fetches one record per ID, in order. On a 400 it stops
  with the records fetched so far, the failing ID and the response. Any other
  failing status raises without a partial result. The model is
  `Utils.ExpandIds`, proved against the function `Utils.Expand`.
- **The web-UI search.** The `search_parameters` cookie is computed from the
  caller's options, the search page is fetched, and the four extractors return
  IDs or full records under the keys `subnets`, `addresses`, `vlans` and
  `vrfs`. The model is `Search`.

The phpIPAM service is a function from request to response, fixed for the
life of the session. The web UI is another such function. Each session
records the requests it has sent, so a method's contract can say which
requests it issued and in what order. The search page is abstracted as what
the four extraction rules find in it (`Http.Page`):
- the IDs of the subnet rows and the IP-address rows;
- for VLANs and VRFs, whether the results heading is present and the IDs in
  the table that follows it.

The model follows these details of the code:
- **VRF result key.** The search result lists VRFs under `vrfs`, while the
  cookie category is called `vrf`. The docstring of `PhpIpamClient.search`
  (phpipampyez/client.py:301-302) speaks of "the same keys as in
  DEFAULT_SEARCH_PARAMS", but the result never has `vrf`, `pstn` or
  `circuits`.
- **Path building.** Paths are built by plain concatenation.
  `get_catalog` calls the verb wrapper with the empty suffix, so its URL is
  the controller's path followed by one more `/` and ends in `//`.
- **Search text.** The search text is put into the search URL as given.
- **Search options.** The cookie tests only whether a category is named
  among the keyword options, not the value passed with it. `vlans=False`
  therefore turns VLANs on, and the options are modelled as a set of names.

## Model

| member | source | states |
|---|---|---|
| `Indexing.SpecError` | phpipampyez/client.py:238-245 | the key form is rejected before any record is read exactly when it is neither a str, a non-empty tuple nor a callable |
| `Indexing.FieldValues` | phpipampyez/client.py:240-241 | `itemgetter` over several names: succeeds iff every name is present; then the values in name order; otherwise fails on the first missing name |
| `Indexing.KeyOf` | phpipampyez/client.py:238-247 | a computed key that is stored is always hashable (lists and dicts, or tuples holding them, are refused) |
| `Indexing.Index` | phpipampyez/client.py:213-247 | a key of another type is a `ValueError`; an empty tuple key is refused by `itemgetter` |
| `Indexing.BuildError` | phpipampyez/client.py:247 | the comprehension fails iff some record's key fails, and with the error of the first such record |
| `Indexing.BuildContents` | phpipampyez/client.py:247 | on success every record's key is in the dictionary and every entry is the last record with that key |
| `Indexing.IndexCharacterized` | phpipampyez/client.py:238-247 | for every key form: indexing succeeds iff the key form is valid and every record's key can be computed; the result is then an index of the records |
| `Indexing.IndexLastWins` | phpipampyez/client.py:247 | later record wins: the entry for a key is the last record in list order holding that key |
| `Indexing.IndexErrorIsFirst` | phpipampyez/client.py:238-247 | the error raised is the key form's own or else that of the first record whose key fails |
| `Indexing.SingleFieldTupleIsScalar` | phpipampyez/client.py:240-241 | a one-name tuple key indexes exactly as the bare name does (`itemgetter(*(n,))` yields a scalar) |
| `Indexing.FieldIndex` | phpipampyez/client.py:238-247 | field-name key: succeeds iff every record has a hashable value for the field; the domain is exactly the set of those values; a record whose value no later record shares is what its value looks up |
| `Indexing.TupleKey` | phpipampyez/client.py:240-241 | tuple key of two or more names: a record's key is the tuple of its field values in name order |
| `Indexing.TupleIndex` | phpipampyez/client.py:240-247 | tuple key: on success every record has all the named fields and its tuple of values is in the index |
| `Indexing.PairKey` | phpipampyez/client.py:240-241 | a two-field key of a record is the pair of its two values |
| `Indexing.PairIndexLookup` | tests/ipam_stampie.py:20-23 | a `(name, location)` lookup in a catalog built with that tuple key finds the record, unless a later record has the same pair |
| `Indexing.DeriveIndex` | phpipampyez/client.py:242-247 | callable key: succeeds iff every `f(record)` is hashable; the domain is exactly those values; the last record with a given value is what that value looks up |
| `Values.AsRecords` | phpipampyez/client.py:66-68 | the body's `data` is usable as records exactly when it is a list of objects, and the records are those objects in order |
| `Client.TokenOf` | phpipampyez/client.py:201 | the login token is read iff `data` is an object with a `token`; no `data` is a KeyError on `data`, an object without `token` a KeyError on `token`, a `data` of another type a TypeError |
| `Client.CatalogRoundTrip` | phpipampyez/client.py:63-68 | a successful catalog fetch had a good status and valid records; the catalog is an index of them, a body without `data` gives the empty catalog, and the last record with a key is stored under it |
| `Client.CatalogByIdRoundTrip` | phpipampyez/client.py:63-68 | with the default key `id`, every fetched record's `id` is in the catalog and finds the record unless a later one shares the `id` |
| `Client.CatalogOf` | phpipampyez/client.py:63-68 | what `get_catalog` computes, in the source's order: a bad status is reported as that status; then the key form's own error, before any record is read; on success every key is hashable and every entry is one of the response's records |
| `Client.Controller.constructor` | phpipampyez/client.py:54-58 | a new controller has the given session and path and an empty catalog |
| `Client.Controller.Child` | phpipampyez/client.py:138-145 | `_name` yields a controller at `url + name + "/"` on the same session; a second access returns the same object, a first one a fresh controller recorded in the memo |
| `Client.Controller.Call` | phpipampyez/client.py:150-156 | a verb call with suffix `s` sends exactly one request, to `{host}/api/{app}` + url + s + "/", with the current token, and returns the service's response to it |
| `Client.Controller.GetCatalog` | phpipampyez/client.py:63-68 | callable on any controller: one GET of the controller's path; the catalog becomes the index of the records on success and is unchanged on every failure; the memoised children are untouched |
| `Client.Controller.Lookup` | phpipampyez/client.py:106-107 | `controller[k]` raises a TypeError exactly when `k` cannot be hashed; otherwise it is the catalog entry for `k`, or None exactly when `k` has none |
| `Client.PhpIpamClient.constructor` | phpipampyez/client.py:191-195 | a client built with `skip_login=True`: fresh sessions for the API and the web UI, no token, nothing sent |
| `Client.PhpIpamClient.Root` | phpipampyez/client.py:272-277 | `client.name` is the controller at `"/" + name + "/"` on the client's session; memoised, so the second access returns the same object; the controller returned keeps its memoised children consistent, so `Child` can be called on it |
| `Client.PhpIpamClient.Descend` | tests/ipam_stampie.py:19 | `client.root._name` (as `ipam.tools._racks`) is the controller at `"/" + root + "/" + name + "/"`, memoised at both levels; no other controller's children and no catalog change |
| `Client.PhpIpamClient.Login` | phpipampyez/client.py:197-210 | the API login POST comes first; on a bad status or a missing token nothing else happens and the token is unchanged; otherwise the token is stored before the web-UI login is posted, and a web-UI failure keeps it |
| `Http.ApiSession.constructor` | phpipampyez/client.py:33-37 | a session for `host` and `app` with no token and nothing sent |
| `Http.ApiSession.Send` | phpipampyez/client.py:39-41 | every request goes to `{host}/api/{app}` + url, carries the session's token and is logged |
| `Http.WebSession.constructor` | phpipampyez/client.py:192 | the web-UI session starts with no `search_parameters` cookie and nothing sent |
| `Http.WebSession.Send` | phpipampyez/search.py:113-114 | a web-UI request goes to the URL as given and carries the cookie in the jar when it is sent, which the request leaves unchanged |
| `Http.FirstFailure` | phpipampyez/utils.py:105-113 | the position of the first ID whose response raises or lacks `data`; every earlier ID's response is good |
| `Http.FetchAll` | phpipampyez/search.py:16-22 | what an `extracto_*` fetch loop computes: one item per ID on success; a failure is `raise_for_status`'s error or the KeyError on `data` |
| `Http.FetchAllSuccess` | phpipampyez/search.py:16-22 | a fetch-each loop succeeds iff no response fails, and then yields the `data` of each ID's response in order |
| `Http.FetchAllFailure` | phpipampyez/search.py:17-20 | a failing fetch-each loop stops at the first failing ID, after which nothing is fetched, and raises its error |
| `Utils.CreateIndex` | phpipampyez/utils.py:30-64 | the module-level indexer equals the client's `index` for every key form and list; it succeeds iff the key form is valid and every key can be computed, and otherwise raises the key form's error or that of the first failing record |
| `Utils.Expand` | phpipampyez/utils.py:103-115 | what `expand_ids` computes: one item per ID on success; a 400 carries the data before the failing ID, that ID and its response; any other failure is a non-400 status error or the KeyError on `data` |
| `Utils.ExpandSuccess` | phpipampyez/utils.py:103-115 | `expand_ids` succeeds iff no response fails, and then returns one `data` per ID in input order |
| `Utils.ExpandPartial` | phpipampyez/utils.py:105-110 | a 400 stops the expansion at that ID, carrying the data of exactly the IDs before it, the ID and its response |
| `Utils.ExpandOtherFailure` | phpipampyez/utils.py:112-113 | any other failure is the first failing response's own error, without a partial list |
| `Utils.ExpandAgreesWithFetchAll` | phpipampyez/utils.py:105-113 | `expand_ids` differs from the plain fetch-each loop exactly when the first failing status is 400 |
| `Utils.ExpandIds` | phpipampyez/utils.py:103-115 | the loop computes `Expand`; it sends one GET per ID up to and including the first failing one, in order; an empty list sends nothing and returns `[]` |
| `Search.SearchParameters` | phpipampyez/search.py:106-111 | the cookie has exactly the six default categories, each "on" or "off"; no options give the defaults, otherwise a category is "on" iff named |
| `Search.CookieIgnoresUnknownOptions` | phpipampyez/search.py:107-109 | once some option is given, adding names outside the six categories leaves the cookie unchanged |
| `Search.UnknownOptionsSwitchAllOff` | phpipampyez/search.py:107-109 | options that name none of the six categories still replace the defaults: every category is "off" |
| `Search.Assemble` | phpipampyez/search.py:121-126 | a search result has exactly the keys `subnets`, `addresses`, `vlans`, `vrfs`; with `return_ids` each holds the IDs found, verbatim and in page order |
| `Search.AssembleSucceedsIffAllCategories` | phpipampyez/search.py:121-126 | with records requested, the search succeeds exactly when every category's fetches succeed |
| `Search.AssembleFailsAtFirstCategory` | phpipampyez/search.py:121-126 | a failing search raises the error of the category at some position of the extraction order subnets, addresses, vlans, vrfs whose fetches fail, every category before it having succeeded |
| `Search.CategoryTraffic` | phpipampyez/search.py:16-20 | an extractor's GETs go to its category's controller, one per ID in page order, for every ID when all succeed |
| `Search.ExpandedResult` | phpipampyez/search.py:9-85 | with records requested, each category holds one record per ID found, in order; a missing VLAN or VRF heading gives an empty list |
| `Search.FetchOne` | phpipampyez/search.py:18 | `client.key.get(id)`: the response is the one for the GET of the category path plus the ID, that GET is appended to the traffic, and the controller for `key` is the memoised one or a fresh one with an empty catalog |
| `Search.FetchEach` | phpipampyez/search.py:16-22 | the extractor loop computes `FetchAll` over the category's controller and sends its GETs; the controller is created only if there is an ID to fetch, and a created one is fresh with an empty catalog |
| `Search.Extract` | phpipampyez/search.py:9-22 | one extractor: the IDs as found when `return_ids`, with no request sent and no controller created; otherwise `FetchEach`, any controller it adds being fresh with an empty catalog |
| `Search.ExtractPair` | phpipampyez/search.py:123-124 | two extractors in turn, the second only when the first did not raise; the traffic is the first's followed by the second's; added controllers are fresh with empty catalogs |
| `Search.Results` | phpipampyez/search.py:121-129 | the four extractors in order, the first failure ending the search; the result is `Assemble` and the traffic `AssembleTraffic`; every controller added is a fresh one with an empty catalog |
| `Search.Search` | phpipampyez/search.py:98-129 | the cookie is set before the search GET; a bad status stops the search with no API request; otherwise the result and the API traffic are those of the extractors, and there is none with `return_ids`; controllers it adds are fresh with empty catalogs |

## Left out

- `Client.Controller.Child`: called on a controller that was itself
  returned from the memo of `Child`, a caller cannot show its `Valid()`, so
  chains of three or more attribute levels (`client.a._b._c`) are not
  covered. A client's `Valid()` covers its root controllers and their
  direct children only, which is as deep as the code and its tests go
  (`ipam.tools._racks`).
- The HTTP transport. Sessions, cookie jars, header handling and
  `requests`' own errors are not modelled. A response is its status and the
  `data` member of its JSON body. `raise_for_status` is the predicate
  "status in 400..599".
- JSON. The text of request and response bodies, and the JSON encoding of
  the cookie, are not modelled. The cookie is a map from category to "on"
  or "off".
- HTML parsing with BeautifulSoup. The page is replaced by the IDs each
  extraction rule finds in it. A VLAN or VRF heading that is present with
  no table after it (Python would fail on `None`) is not modelled.
- An element an extraction rule matches that lacks its ID attribute. This
  covers a `subnetSearch` row without `subnetid`, an `ipSearch` row without
  `id`, and an edit anchor without `data-vlanid` or `data-vrfid`. Python
  raises a KeyError for it (phpipampyez/search.py:11, 28, 51 and 73). The
  page abstraction gives an ID for every match, so the model has no such
  error.
- A service whose answers change over time. The service is a fixed
  function, so two GETs of the same URL get the same response.
- Floating-point numbers in records. Python's equality of `1`, `1.0` and
  `True` as dictionary keys is also not modelled.
- A key callable that raises or returns a non-value. A callable key is a
  total function.
- `Client.CatalogOf`: catalog `data` that is not a list of objects gives
  one "not records" error in the model, and the old catalog is kept.
  Python iterates whatever `data` is:
  - An empty object or an empty string iterates nothing. Python stores an
    empty catalog, whatever the key.
  - `null`, a number or a boolean cannot be iterated, and Python raises a
    TypeError.
  - A non-empty object (its keys), a non-empty string (its characters) or a
    list holding something other than objects raises a TypeError from
    `itemgetter` with a field or tuple key. With a callable key it may
    index.
- A response body that is not a JSON object. Python's `body.get` would fail
  on it. A response is modelled by its optional `data` member only.
- The dynamic attribute machinery (`__getattr__`, `functools.wraps`). It is
  replaced by `Child`, `Root` and `Call`. The shadowing of controller names
  by the client's own attributes (`api`, `webui`, `login`, `index`,
  `search`) is not modelled.
- The `PhpIpamClient` constructor without `skip_login`. It is the
  constructor followed by `Login`.
- `PhpIpamClient.search` (phpipampyez/client.py:279-305). It only forwards
  to `search`, which is `Search.Search`.
- The response text and headers that the Python exceptions carry. An
  `HttpError` keeps only the status.
- The `pstn` and `circuits` categories. They are only switches in the
  cookie, and no extractor exists for them.
- The commented-out `touch` and `wipe`. They are not live code.
- The test helpers, the packaging and the example script. They are not
  part of this model.

=== FILE: client.dfy ===
/** The client object and its tree of controller proxies. A controller stands
    for one URL path of the phpIPAM API: it builds child paths, memoises the
    child objects, issues verbs against its own path and keeps a catalog of
    the records last fetched from it. */
module Client {
  import opened Values
  import opened Indexing
  import opened Http

  /** The path of the controller the client hands out for `name`. */
  function RootPath(name: string): string
  {
    "/" + name + "/"
  }

  /** The name sits between the two slashes of its path, so distinct names
      give distinct controller paths. */
  lemma RootPathInjective(a: string, b: string)
    ensures RootPath(a) == RootPath(b) <==> a == b
  {
    if RootPath(a) == RootPath(b) {
      assert RootPath(a)[1..|a| + 1] == a;
      assert RootPath(b)[1..|b| + 1] == b;
    }
  }

  /** The token a login response carries in `data.token`. A body without
      `data`, or whose `data` object has no `token`, raises a KeyError; a
      `data` that is not an object cannot be subscripted by name and raises
      a TypeError. */
  function TokenOf(got: Response): (r: Result<Value, Error>)
    ensures r.Ok? <==> got.data.Some? && got.data.value.Dict? && "token" in got.data.value.fields
    ensures r.Ok? ==> r.value == got.data.value.fields["token"]
    ensures got.data.None? ==> r == Err(MissingKey("data"))
    ensures got.data.Some? && got.data.value.Dict? && "token" !in got.data.value.fields ==> r == Err(MissingKey("token"))
    ensures got.data.Some? && !got.data.value.Dict? ==> r == Err(TypeError)
  {
    match got.data
    case None => Err(MissingKey("data"))
    case Some(body) =>
      if !body.Dict? then Err(TypeError)
      else if "token" in body.fields then Ok(body.fields["token"])
      else Err(MissingKey("token"))
  }

  /** The records of a catalog response: its `data`, or none when it has no
      `data`. */
  function CatalogRecords(got: Response): Option<seq<Record>>
  {
    AsRecords(if got.data.Some? then got.data.value else List([]))
  }

  /** What `get_catalog` makes of the response to its GET: an error for a bad
      status; then, as `index` checks its key before reading any record, the
      key form's own error; then an error for data that is not a list of
      records or whose records the indexer refuses; otherwise the index of
      the records. */
  function CatalogOf(got: Response, key: KeySpec): (r: Result<map<Value, Record>, Error>)
    ensures RaisesForStatus(got.status) ==> r == Err(HttpError(got.status))
    ensures !RaisesForStatus(got.status) && SpecError(key).Some? ==> r == Err(IndexFailed(SpecError(key).value))
    ensures r.Ok? ==> CatalogRecords(got).Some?
    ensures r.Ok? ==> forall k :: k in r.value ==> Hashable(k) && r.value[k] in CatalogRecords(got).value
  {
    if RaisesForStatus(got.status) then Err(HttpError(got.status))
    else
      match SpecError(key)
      case Some(e) => Err(IndexFailed(e))
      case None =>
        match CatalogRecords(got)
        case None => Err(NotRecords)
        case Some(records) =>
          IndexCharacterized(records, key);
          match Index(records, key)
          case Err(e) => Err(IndexFailed(e))
          case Ok(m) => Ok(m)
  }

  /** A successful catalog is the index of the response's records: every
      record's key is in it and each key maps to the last record that has
      it; a response without `data` gives an empty catalog. */
  lemma CatalogRoundTrip(got: Response, key: KeySpec)
    requires CatalogOf(got, key).Ok?
    ensures !RaisesForStatus(got.status) && CatalogRecords(got).Some? && SpecError(key).None?
    ensures IsIndexOf(CatalogRecords(got).value, key, CatalogOf(got, key).value)
    ensures got.data.None? ==> CatalogOf(got, key).value == map[]
    ensures forall i ::
      (0 <= i < |CatalogRecords(got).value| &&
       LastWithKey(CatalogRecords(got).value, key, i, KeyOf(key, CatalogRecords(got).value[i]).value)) ==>
        CatalogOf(got, key).value[KeyOf(key, CatalogRecords(got).value[i]).value] == CatalogRecords(got).value[i]
  {
    var records := CatalogRecords(got).value;
    IndexCharacterized(records, key);
    forall i | 0 <= i < |records| && LastWithKey(records, key, i, KeyOf(key, records[i]).value)
      ensures CatalogOf(got, key).value[KeyOf(key, records[i]).value] == records[i]
    {
      IndexLastWins(records, key, i);
    }
  }

  /** With the default key `id`: every record of the response can be looked
      up by its `id`, and the lookup gives that record unless a later one
      has the same `id`. */
  lemma CatalogByIdRoundTrip(got: Response)
    requires CatalogOf(got, Field("id")).Ok?
    ensures forall i :: 0 <= i < |CatalogRecords(got).value| ==>
      "id" in CatalogRecords(got).value[i] &&
      CatalogRecords(got).value[i]["id"] in CatalogOf(got, Field("id")).value
    ensures forall i ::
      (0 <= i < |CatalogRecords(got).value| &&
       forall j :: i < j < |CatalogRecords(got).value| ==>
         CatalogRecords(got).value[j]["id"] != CatalogRecords(got).value[i]["id"]) ==>
        CatalogOf(got, Field("id")).value[CatalogRecords(got).value[i]["id"]] == CatalogRecords(got).value[i]
  {
    var records := CatalogRecords(got).value;
    FieldIndex(records, "id");
  }

  class Controller {
    const api: ApiSession
    const url: string
    var catalog: map<Value, Record>
    var children: map<string, Controller>

    /** Every memoised child shares this controller's session and has the
        path of this controller extended by its name. */
    ghost predicate Valid()
      reads this
    {
      forall name {:trigger children[name]} :: name in children ==>
        children[name].api == api && children[name].url == url + name + "/"
    }

    constructor (api: ApiSession, url: string)
      ensures this.api == api && this.url == url
      ensures catalog == map[] && children == map[]
      ensures Valid()
    {
      this.api := api;
      this.url := url;
      catalog := map[];
      children := map[];
    }

    /** Attribute `"_" + name`: the sub-controller for `name`, created on the
        first access and the same object on every later one. */
    method Child(name: string) returns (c: Controller)
      requires Valid()
      modifies this
      ensures Valid()
      ensures catalog == old(catalog)
      ensures c.api == api && c.url == url + name + "/"
      ensures name in old(children) ==> c == old(children[name]) && children == old(children)
      ensures name !in old(children) ==>
        fresh(c) && c.catalog == map[] && c.children == map[] && children == old(children)[name := c]
    {
      if name in children {
        c := children[name];
        return;
      }
      c := new Controller(api, url + name + "/");
      children := children[name := c];
    }

    /** A verb wrapper called with `suffix`: the session sends the verb to
        `{host}/api/{app}` + this controller's path + suffix + "/" and the raw
        response comes back, whatever its status. */
    method Call(verb: Verb, suffix: string, payload: Payload) returns (res: Response)
      modifies api
      ensures api.token == old(api.token)
      ensures api.sent == old(api.sent) + [Request(verb, api.Prefix() + url + suffix + "/", api.token, payload)]
      ensures res == api.server(Request(verb, api.Prefix() + url + suffix + "/", api.token, payload))
    {
      assert api.Prefix() + (url + suffix + "/") == api.Prefix() + url + suffix + "/";
      res := api.Send(verb, url + suffix + "/", payload);
    }

    /** `get_catalog(key)`: GET of the controller's own path (the empty
        suffix, so the URL ends in "//"); the catalog is replaced only when
        the status is good and the records index without error, and is left
        as it was otherwise. */
    method GetCatalog(key: KeySpec) returns (err: Option<Error>)
      modifies this, api
      ensures children == old(children)
      ensures api.token == old(api.token)
      ensures api.sent == old(api.sent) + [Request(Get, api.Prefix() + url + "/", api.token, NoPayload)]
      ensures var got := api.server(Request(Get, api.Prefix() + url + "/", api.token, NoPayload));
        match CatalogOf(got, key)
        case Ok(m) => err == None && catalog == m
        case Err(e) => err == Some(e) && catalog == old(catalog)
    {
      assert api.Prefix() + url + "" == api.Prefix() + url;
      var got := Call(Get, "", NoPayload);
      if RaisesForStatus(got.status) {
        return Some(HttpError(got.status));
      }
      var keyError := SpecError(key);
      if keyError.Some? {
        return Some(IndexFailed(keyError.value));
      }
      var records := CatalogRecords(got);
      if records.None? {
        return Some(NotRecords);
      }
      var index := Index(records.value, key);
      if index.Err? {
        return Some(IndexFailed(index.error));
      }
      catalog := index.value;
      err := None;
    }

    /** `controller[k]`: the catalog entry for `k`, or None when there is
        none; only a key that cannot be hashed, which `dict.get` refuses
        before looking, raises (a TypeError). */
    function Lookup(k: Value): (r: Result<Option<Record>, Error>)
      reads this
      ensures r.Ok? <==> Hashable(k)
      ensures r.Err? ==> r.error == TypeError
      ensures r.Ok? ==> (r.value.Some? <==> k in catalog) && (r.value.Some? ==> r.value.value == catalog[k])
    {
      if !Hashable(k) then Err(TypeError)
      else if k in catalog then Ok(Some(catalog[k]))
      else Ok(None)
    }
  }

  class PhpIpamClient {
    const api: ApiSession
    const webui: WebSession
    var controllers: map<string, Controller>

    /** Every memoised controller uses the client's API session, has the
        root path of its name, and keeps its own children consistent. */
    ghost predicate Valid()
      reads this, controllers.Values
    {
      forall name {:trigger controllers[name]} :: name in controllers ==>
        && controllers[name].api == api
        && controllers[name].url == RootPath(name)
        && controllers[name].Valid()
    }

    /** A client constructed with `skip_login=True`; `Login` is the rest of
        the default construction. */
    constructor (host: string, app: string, server: Request -> Response, webServer: WebRequest -> WebResponse)
      ensures fresh(api) && fresh(webui)
      ensures api.host == host && api.app == app && api.server == server
      ensures api.token == None && api.sent == []
      ensures webui.server == webServer && webui.searchParameters == None && webui.sent == []
      ensures controllers == map[] && Valid()
    {
      api := new ApiSession(host, app, server);
      webui := new WebSession(webServer);
      controllers := map[];
    }

    /** Attribute `name` of the client: the controller for path "/name/",
        created on the first access and the same object on every later one. */
    method Root(name: string) returns (c: Controller)
      requires Valid()
      modifies this
      ensures Valid() && c.Valid()
      ensures c.api == api && c.url == RootPath(name)
      ensures name in old(controllers) ==> c == old(controllers[name]) && controllers == old(controllers)
      ensures name !in old(controllers) ==>
        fresh(c) && c.catalog == map[] && c.children == map[] && controllers == old(controllers)[name := c]
    {
      if name in controllers {
        c := controllers[name];
        return;
      }
      c := new Controller(api, RootPath(name));
      controllers := controllers[name := c];
    }

    /** `client.root._name`, as in `ipam.tools._racks`: the controller
        `name` below the root controller `root`, both levels memoised.
        Controllers other than the root keep their children, and every
        catalog is left as it was. */
    method Descend(root: string, name: string) returns (c: Controller)
      requires Valid()
      modifies this, controllers.Values
      ensures Valid()
      ensures c.api == api && c.url == RootPath(root) + name + "/"
      ensures controllers.Keys == old(controllers.Keys) + {root}
      ensures forall n :: n in old(controllers) ==> controllers[n] == old(controllers[n])
      ensures controllers[root].children.Keys == old(if root in controllers then controllers[root].children.Keys else {}) + {name}
      ensures controllers[root].children[name] == c
      ensures forall n :: n in old(controllers) && n != root ==> controllers[n].children == old(controllers[n].children)
      ensures forall n :: n in old(controllers) ==> controllers[n].catalog == old(controllers[n].catalog)
    {
      var r := Root(root);
      c := r.Child(name);
      forall n | n in controllers && n != root
        ensures controllers[n] != r
      {
        RootPathInjective(n, root);
      }
    }

    /** `login(user, password)`: the API login comes first and the token is
        stored as soon as it is read, before the web-UI login is tried; a
        failure of the API login leaves the token alone and sends nothing to
        the web UI, and a failure of the web-UI login keeps the new token. */
    method Login(user: string, password: string) returns (err: Option<Error>)
      modifies api, webui
      ensures webui.searchParameters == old(webui.searchParameters)
      ensures var req := Request(Post, api.Prefix() + "/user/", old(api.token), BasicAuth(user, password));
        var got := api.server(req);
        var webReq := WebRequest(Post, api.host + "/app/login/login_check.php", webui.searchParameters,
                                 Form(map["ipamusername" := user, "ipampassword" := password]));
        && api.sent == old(api.sent) + [req]
        && (RaisesForStatus(got.status) ==>
              err == Some(HttpError(got.status)) && api.token == old(api.token) && webui.sent == old(webui.sent))
        && (!RaisesForStatus(got.status) && TokenOf(got).Err? ==>
              err == Some(TokenOf(got).error) && api.token == old(api.token) && webui.sent == old(webui.sent))
        && (!RaisesForStatus(got.status) && TokenOf(got).Ok? ==>
              && api.token == Some(TokenOf(got).value)
              && webui.sent == old(webui.sent) + [webReq]
              && err == (if RaisesForStatus(webui.server(webReq).status)
                         then Some(HttpError(webui.server(webReq).status)) else None))
    {
      var got := api.Send(Post, "/user/", BasicAuth(user, password));
      if RaisesForStatus(got.status) {
        return Some(HttpError(got.status));
      }
      var token := TokenOf(got);
      if token.Err? {
        return Some(token.error);
      }
      api.token := Some(token.value);
      var res := webui.Send(Post, api.host + "/app/login/login_check.php",
                            Form(map["ipamusername" := user, "ipampassword" := password]));
      if RaisesForStatus(res.status) {
        return Some(HttpError(res.status));
      }
      err := None;
    }
  }
}

=== FILE: http.dfy ===
/** The two HTTP sessions a client holds, with the transport abstracted: the
    remote service is a function from request to response, and each session
    keeps the list of the requests it has sent. Also the pattern, shared by
    `expand_ids` and the search extractors, of fetching one record per ID. */
module Http {
  import opened Values
  import Indexing

  datatype Verb = Get | Post | Put | Patch | Delete | Head | Options

  /** What a request carries besides its URL. */
  datatype Payload =
    | NoPayload
    | BasicAuth(user: string, password: string)
    | Form(fields: map<string, string>)
    | Json(body: Value)

  /** An API request; `token` is the `token` header in effect. */
  datatype Request = Request(verb: Verb, url: string, token: Option<Value>, payload: Payload)

  /** An API response: its status code and the `data` member of its JSON
      envelope, if it has one. */
  datatype Response = Response(status: int, data: Option<Value>)

  /** What the search extraction rules find in the web page: the IDs of the
      subnet rows and the address rows, and for VLANs and VRFs whether the
      results heading is there and the IDs of the edit anchors in the table
      that follows it. */
  datatype Section = NoHeading | Heading(ids: seq<string>)
  datatype Page = Page(subnetRows: seq<string>, addressRows: seq<string>, vlans: Section, vrfs: Section)

  /** A web-UI request; `searchParameters` is the `search_parameters` cookie
      in the session's jar when it is sent. */
  datatype WebRequest = WebRequest(verb: Verb, url: string, searchParameters: Option<map<string, string>>, payload: Payload)
  datatype WebResponse = WebResponse(status: int, page: Page)

  /** The failures the library raises. */
  datatype Error =
    | HttpError(status: int)                                    // raise_for_status
    | MissingKey(key: string)                                   // KeyError on a response body
    | TypeError                                                 // a value of the wrong type, or an unhashable key
    | NotRecords                                                // catalog data is not a list of records
    | IndexFailed(reason: Indexing.IndexError)                  // index raised
    | PartialExpansion(found: seq<Value>, id: string, response: Response)  // expand_ids on a 400

  const BadRequest: int := 400

  /** `raise_for_status` raises for client (4xx) and server (5xx) errors. */
  predicate RaisesForStatus(status: int)
  {
    400 <= status < 600
  }

  /** The GET a controller's verb wrapper issues for suffix `id`. */
  function GetRequest(prefix: string, path: string, token: Option<Value>, id: string): Request
  {
    Request(Get, prefix + path + id + "/", token, NoPayload)
  }

  /** The response the service gives to a GET of `path + id + "/"` through
      an API session with URL prefix `prefix` and token `token`: what a
      controller at `path` fetches for `id`. */
  function Fetcher(server: Request -> Response, prefix: string, token: Option<Value>, path: string): string -> Response
  {
    (id: string) => server(GetRequest(prefix, path, token, id))
  }

  lemma FetcherApplied(server: Request -> Response, prefix: string, token: Option<Value>, path: string, id: string)
    ensures Fetcher(server, prefix, token, path)(id) == server(GetRequest(prefix, path, token, id))
  {
  }

  class ApiSession {
    const host: string
    const app: string
    const server: Request -> Response
    var token: Option<Value>
    var sent: seq<Request>

    constructor (host: string, app: string, server: Request -> Response)
      ensures this.host == host && this.app == app && this.server == server
      ensures token == None && sent == []
    {
      this.host := host;
      this.app := app;
      this.server := server;
      token := None;
      sent := [];
    }

    /** Every URL this session sends is prefixed with `{host}/api/{app}`. */
    function Prefix(): string
    {
      host + "/api/" + app
    }

    /** `prepare_request` prefixes the URL, then the request is sent with the
        session's token header. */
    method Send(verb: Verb, url: string, payload: Payload) returns (res: Response)
      modifies this
      ensures token == old(token)
      ensures sent == old(sent) + [Request(verb, Prefix() + url, token, payload)]
      ensures res == server(Request(verb, Prefix() + url, token, payload))
    {
      var req := Request(verb, Prefix() + url, token, payload);
      res := server(req);
      sent := sent + [req];
    }
  }

  class WebSession {
    const server: WebRequest -> WebResponse
    var searchParameters: Option<map<string, string>>
    var sent: seq<WebRequest>

    constructor (server: WebRequest -> WebResponse)
      ensures this.server == server && searchParameters == None && sent == []
    {
      this.server := server;
      searchParameters := None;
      sent := [];
    }

    /** A plain (unprefixed) request, sent with the cookie jar. */
    method Send(verb: Verb, url: string, payload: Payload) returns (res: WebResponse)
      modifies this
      ensures searchParameters == old(searchParameters)
      ensures sent == old(sent) + [WebRequest(verb, url, searchParameters, payload)]
      ensures res == server(WebRequest(verb, url, searchParameters, payload))
    {
      var req := WebRequest(verb, url, searchParameters, payload);
      res := server(req);
      sent := sent + [req];
    }
  }

  /** A fetched response that stops the fetch-each loop: its status makes
      `raise_for_status` raise, or its body has no `data`. */
  predicate Fails(res: Response)
  {
    RaisesForStatus(res.status) || res.data.None?
  }

  /** The position of the first ID whose fetch fails, or |ids| if none does. */
  function FirstFailure(fetch: string -> Response, ids: seq<string>): (n: nat)
    ensures n <= |ids|
    ensures forall i :: 0 <= i < n ==> !Fails(fetch(ids[i]))
    ensures n < |ids| ==> Fails(fetch(ids[n]))
    decreases |ids|
  {
    if ids == [] then 0
    else if Fails(fetch(ids[0])) then 0
    else 1 + FirstFailure(fetch, ids[1..])
  }

  /** How many IDs the loop fetches: all of them, or up to and including the
      first failing one. */
  function Attempts(fetch: string -> Response, ids: seq<string>): nat
  {
    var n := FirstFailure(fetch, ids);
    if n < |ids| then n + 1 else n
  }

  /** The `data` of the responses for `ids`, none of which fails. */
  function DataOf(fetch: string -> Response, ids: seq<string>): (items: seq<Value>)
    requires forall i :: 0 <= i < |ids| ==> !Fails(fetch(ids[i]))
  {
    seq(|ids|, i requires 0 <= i < |ids| && !Fails(fetch(ids[i])) => fetch(ids[i]).data.value)
  }

  /** The error the fetch of a failing response raises. */
  function FailureOf(res: Response): Error
    requires Fails(res)
  {
    if RaisesForStatus(res.status) then HttpError(res.status) else MissingKey("data")
  }

  /** What a loop that fetches each ID in turn, raises for a bad status and
      collects the `data` of each body computes: the data of every response
      in order, or the error of the first failing one. */
  function FetchAll(fetch: string -> Response, ids: seq<string>): (r: Result<seq<Value>, Error>)
    ensures r.Ok? ==> |r.value| == |ids|
    ensures r.Err? ==> r.error.HttpError? || r.error == MissingKey("data")
  {
    var n := FirstFailure(fetch, ids);
    if n == |ids| then Ok(DataOf(fetch, ids))
    else Err(FailureOf(fetch(ids[n])))
  }

  /** The GETs the loop issues for `ids` through a controller at `path`. */
  function GetRequests(prefix: string, path: string, token: Option<Value>, ids: seq<string>): (rs: seq<Request>)
    ensures |rs| == |ids|
    ensures forall i :: 0 <= i < |ids| ==> rs[i] == GetRequest(prefix, path, token, ids[i])
  {
    seq(|ids|, i requires 0 <= i < |ids| => GetRequest(prefix, path, token, ids[i]))
  }

  /** The GET for `ids[i]` extends the requests for the IDs before it. */
  lemma RequestsStep(prefix: string, path: string, token: Option<Value>, ids: seq<string>, i: nat)
    requires i < |ids|
    ensures GetRequests(prefix, path, token, ids[..i + 1])
      == GetRequests(prefix, path, token, ids[..i]) + [GetRequest(prefix, path, token, ids[i])]
  {
    assert ids[..i + 1] == ids[..i] + [ids[i]];
  }

  /** One pass of the fetch-each loop at position `i`, all earlier IDs
      having succeeded: a failing response ends the loop with its own error
      after `i + 1` fetches, and a good one extends the data collected so
      far. */
  lemma FetchStep(fetch: string -> Response, ids: seq<string>, i: nat)
    requires i < |ids| && i <= FirstFailure(fetch, ids)
    ensures Fails(fetch(ids[i])) ==>
      && FirstFailure(fetch, ids) == i && Attempts(fetch, ids) == i + 1
      && FetchAll(fetch, ids) == Err(FailureOf(fetch(ids[i])))
    ensures !Fails(fetch(ids[i])) ==>
      && i + 1 <= FirstFailure(fetch, ids)
      && DataOf(fetch, ids[..i + 1]) == DataOf(fetch, ids[..i]) + [fetch(ids[i]).data.value]
  {
    var n := FirstFailure(fetch, ids);
    assert i < n ==> !Fails(fetch(ids[i]));
    assert n == i ==> Fails(fetch(ids[i]));
    if !Fails(fetch(ids[i])) {
      DataStep(fetch, ids, i);
    }
  }

  /** The data of the first `i + 1` IDs, all good, is that of the first `i`
      followed by the `data` of `ids[i]`. */
  lemma DataStep(fetch: string -> Response, ids: seq<string>, i: nat)
    requires i < |ids|
    requires forall k :: 0 <= k <= i ==> !Fails(fetch(ids[k]))
    ensures DataOf(fetch, ids[..i + 1]) == DataOf(fetch, ids[..i]) + [fetch(ids[i]).data.value]
  {
    var p, q := ids[..i], ids[..i + 1];
    var d, d' := DataOf(fetch, p), DataOf(fetch, q);
    var e := d + [fetch(ids[i]).data.value];
    assert |d'| == |e|;
    forall k | 0 <= k < |d'|
      ensures d'[k] == e[k]
    {
      assert q[k] == ids[k];
      if k < i {
        assert p[k] == ids[k];
        assert d[k] == fetch(ids[k]).data.value;
      }
    }
  }

  /** The fetch-each loop that reaches the end of `ids` has fetched every ID
      and collected the data of all of them. */
  lemma FetchDone(fetch: string -> Response, ids: seq<string>)
    requires FirstFailure(fetch, ids) == |ids|
    ensures ids[..|ids|] == ids
    ensures Attempts(fetch, ids) == |ids|
    ensures FetchAll(fetch, ids) == Ok(DataOf(fetch, ids))
  {
    assert ids[..|ids|] == ids;
  }

  /** On success the loop yields one item per ID, in order: the `data` of
      that ID's response. */
  lemma FetchAllSuccess(fetch: string -> Response, ids: seq<string>)
    ensures FetchAll(fetch, ids).Ok? <==> forall i :: 0 <= i < |ids| ==> !Fails(fetch(ids[i]))
    ensures FetchAll(fetch, ids).Ok? ==>
      |FetchAll(fetch, ids).value| == |ids| &&
      forall i :: 0 <= i < |ids| ==> FetchAll(fetch, ids).value[i] == fetch(ids[i]).data.value
  {
    var n := FirstFailure(fetch, ids);
    if n < |ids| {
      assert Fails(fetch(ids[n]));
    }
  }

  /** The loop stops at the first failing ID: every earlier ID succeeded,
      and the error is that response's. */
  lemma FetchAllFailure(fetch: string -> Response, ids: seq<string>)
    requires FetchAll(fetch, ids).Err?
    ensures Attempts(fetch, ids) >= 1
    ensures var n := Attempts(fetch, ids) - 1;
      n < |ids| && Fails(fetch(ids[n])) &&
      (forall i :: 0 <= i < n ==> !Fails(fetch(ids[i]))) &&
      FetchAll(fetch, ids).error == FailureOf(fetch(ids[n]))
  {
  }
}

=== FILE: indexing.dfy ===
/** The indexer shared by `PhpIpamClient.index` and `create_index`: it turns
    a list of records into a dictionary from a computed key to the record,
    the later of two records with the same key winning. */
module Indexing {
  import opened Values

  /** The three accepted forms of the `key` argument, and every other form. */
  datatype KeySpec =
    | Field(name: string)             // a str: index by one field
    | Fields(names: seq<string>)      // a tuple: index by several fields
    | Derive(f: Record -> Value)      // a callable: index by f(record)
    | Invalid                         // anything else

  datatype IndexError =
    | InvalidKeySpec                  // the ValueError for a key of another type
    | NoFieldNames                    // `itemgetter()` refuses an empty tuple
    | MissingField(name: string)      // a record lacks a key field
    | Unhashable(key: Value)          // the computed key cannot be a dict key

  /** The error the key specification raises before any record is looked at. */
  function SpecError(spec: KeySpec): (e: Option<IndexError>)
    ensures e.None? <==> (spec.Field? || spec.Derive? || (spec.Fields? && spec.names != []))
  {
    match spec
    case Invalid => Some(InvalidKeySpec)
    case Fields(names) => if names == [] then Some(NoFieldNames) else None
    case _ => None
  }

  /** The values of the named fields of `r`, in order; the first missing
      field in that order is the error. */
  function FieldValues(r: Record, names: seq<string>): (vs: Result<seq<Value>, IndexError>)
    ensures vs.Ok? <==> forall i :: 0 <= i < |names| ==> names[i] in r
    ensures vs.Ok? ==>
      |vs.value| == |names| && forall i :: 0 <= i < |names| ==> vs.value[i] == r[names[i]]
    ensures vs.Err? ==>
      exists i :: 0 <= i < |names| && names[i] !in r && vs.error == MissingField(names[i]) &&
        (forall j :: 0 <= j < i ==> names[j] in r)
  {
    if names == [] then Ok([])
    else if names[0] !in r then Err(MissingField(names[0]))
    else
      match FieldValues(r, names[1..])
      case Ok(rest) => Ok([r[names[0]]] + rest)
      case Err(e) => Err(e)
  }

  /** The key under which the comprehension stores `r`, or the error it
      raises on `r`. A one-element tuple gets the field's value itself, not
      a one-element tuple, as `itemgetter(*key)` does. */
  function KeyOf(spec: KeySpec, r: Record): (k: Result<Value, IndexError>)
    requires SpecError(spec).None?
    ensures k.Ok? ==> Hashable(k.value)
  {
    var raw :=
      match spec
      case Field(name) =>
        if name in r then Ok(r[name]) else Err(MissingField(name))
      case Fields(names) =>
        if |names| == 1 then
          (if names[0] in r then Ok(r[names[0]]) else Err(MissingField(names[0])))
        else
          (match FieldValues(r, names)
           case Ok(vs) => Ok(Tuple(vs))
           case Err(e) => Err(e))
      case Derive(f) => Ok(f(r));
    if raw.Err? then raw
    else if Hashable(raw.value) then raw
    else Err(Unhashable(raw.value))
  }

  /** The dictionary comprehension over `records`, for a key specification
      that raised nothing. Records are taken in list order: the first record
      whose key raises decides the error, and a later record overwrites an
      earlier one with the same key. */
  function Build(records: seq<Record>, spec: KeySpec): (r: Result<map<Value, Record>, IndexError>)
    requires SpecError(spec).None?
    decreases |records|
  {
    if records == [] then Ok(map[])
    else
      var last := records[|records| - 1];
      match Build(records[..|records| - 1], spec)
      case Err(e) => Err(e)
      case Ok(m) =>
        match KeyOf(spec, last)
        case Err(e) => Err(e)
        case Ok(k) => Ok(m[k := last])
  }

  /** `index(list_of_dict, key)`. */
  function Index(records: seq<Record>, spec: KeySpec): (r: Result<map<Value, Record>, IndexError>)
    ensures spec.Invalid? ==> r == Err(InvalidKeySpec)
    ensures spec == Fields([]) ==> r == Err(NoFieldNames)
  {
    match SpecError(spec)
    case Some(e) => Err(e)
    case None => Build(records, spec)
  }

  /** Record `i` is the last record of the list whose key is `k`. */
  ghost predicate LastWithKey(records: seq<Record>, spec: KeySpec, i: int, k: Value)
    requires SpecError(spec).None?
  {
    && 0 <= i < |records|
    && KeyOf(spec, records[i]) == Ok(k)
    && forall j :: i < j < |records| ==> KeyOf(spec, records[j]) != Ok(k)
  }

  /** Indexing fails exactly when some record's key fails, and then with the
      error of the first such record. */
  lemma {:induction false} BuildError(records: seq<Record>, spec: KeySpec)
    requires SpecError(spec).None?
    ensures Build(records, spec).Err? <==>
      exists i :: 0 <= i < |records| && KeyOf(spec, records[i]).Err?
    ensures Build(records, spec).Err? ==>
      exists i :: 0 <= i < |records| && KeyOf(spec, records[i]).Err? &&
        Build(records, spec).error == KeyOf(spec, records[i]).error &&
        forall j :: 0 <= j < i ==> KeyOf(spec, records[j]).Ok?
  {
    if records != [] {
      var n := |records| - 1;
      var init := records[..n];
      BuildError(init, spec);
      assert forall i :: 0 <= i < n ==> init[i] == records[i];
      if Build(init, spec).Err? {
        var i :| 0 <= i < n && KeyOf(spec, init[i]).Err? &&
          Build(init, spec).error == KeyOf(spec, init[i]).error &&
          forall j :: 0 <= j < i ==> KeyOf(spec, init[j]).Ok?;
        assert KeyOf(spec, records[i]).Err?;
      } else if KeyOf(spec, records[n]).Err? {
        assert forall j :: 0 <= j < n ==> KeyOf(spec, records[j]).Ok?;
      } else {
        assert forall j :: 0 <= j < n ==> KeyOf(spec, records[j]).Ok?;
      }
    }
  }

  /** On success the index holds exactly the records' keys, and each key maps
      to the last record that has it (last write wins). */
  lemma {:induction false} BuildContents(records: seq<Record>, spec: KeySpec, m: map<Value, Record>)
    requires SpecError(spec).None?
    requires Build(records, spec) == Ok(m)
    ensures forall i :: 0 <= i < |records| ==>
      KeyOf(spec, records[i]).Ok? && KeyOf(spec, records[i]).value in m
    ensures forall k :: k in m ==> exists i :: LastWithKey(records, spec, i, k) && m[k] == records[i]
  {
    if records != [] {
      var n := |records| - 1;
      var init := records[..n];
      var m0 := Build(init, spec).value;
      var k := KeyOf(spec, records[n]).value;
      BuildContents(init, spec, m0);
      assert forall i :: 0 <= i < n ==> init[i] == records[i];
      assert m == m0[k := records[n]];
      forall k' | k' in m
        ensures exists i :: LastWithKey(records, spec, i, k') && m[k'] == records[i]
      {
        if k' == k {
          assert LastWithKey(records, spec, n, k');
        } else {
          var i :| LastWithKey(init, spec, i, k') && m0[k'] == init[i];
          assert LastWithKey(records, spec, i, k');
        }
      }
    }
  }

  /** At most one record is the last with a given key. */
  lemma LastWithKeyUnique(records: seq<Record>, spec: KeySpec, i: int, j: int, k: Value)
    requires SpecError(spec).None?
    requires LastWithKey(records, spec, i, k) && LastWithKey(records, spec, j, k)
    ensures i == j
  {
  }

  /** `m` is an index of `records`: it holds every record's key, and each of
      its keys maps to the last record that produces it. */
  ghost predicate IsIndexOf(records: seq<Record>, spec: KeySpec, m: map<Value, Record>)
    requires SpecError(spec).None?
  {
    && (forall i :: 0 <= i < |records| ==> KeyOf(spec, records[i]).Ok? && KeyOf(spec, records[i]).value in m)
    && (forall k :: k in m ==> exists i :: LastWithKey(records, spec, i, k) && m[k] == records[i])
  }

  /** Every key form: indexing succeeds exactly when the key specification
      is valid and every record's key can be computed and hashed, and the
      result is then an index of the records in the sense of `IsIndexOf`. */
  lemma IndexCharacterized(records: seq<Record>, spec: KeySpec)
    ensures Index(records, spec).Ok? <==>
      (SpecError(spec).None? && forall i :: 0 <= i < |records| ==> KeyOf(spec, records[i]).Ok?)
    ensures Index(records, spec).Ok? ==> IsIndexOf(records, spec, Index(records, spec).value)
  {
    if SpecError(spec).None? {
      BuildError(records, spec);
      if Build(records, spec).Ok? {
        BuildContents(records, spec, Build(records, spec).value);
      }
    }
  }

  /** Last write wins: the record stored under a key is the last record of
      the list that produces that key. */
  lemma IndexLastWins(records: seq<Record>, spec: KeySpec, i: int)
    requires Index(records, spec).Ok?
    requires SpecError(spec).None? && 0 <= i < |records| && KeyOf(spec, records[i]).Ok?
    requires LastWithKey(records, spec, i, KeyOf(spec, records[i]).value)
    ensures KeyOf(spec, records[i]).value in Index(records, spec).value
    ensures Index(records, spec).value[KeyOf(spec, records[i]).value] == records[i]
  {
    var m := Index(records, spec).value;
    var k := KeyOf(spec, records[i]).value;
    IndexCharacterized(records, spec);
    var j :| LastWithKey(records, spec, j, k) && m[k] == records[j];
    LastWithKeyUnique(records, spec, i, j, k);
  }

  /** The error an index raises is the key specification's own, or else
      that of the first record whose key fails. */
  lemma IndexErrorIsFirst(records: seq<Record>, spec: KeySpec)
    requires Index(records, spec).Err?
    ensures SpecError(spec).Some? ==> Index(records, spec).error == SpecError(spec).value
    ensures SpecError(spec).None? ==>
      exists i :: 0 <= i < |records| && KeyOf(spec, records[i]).Err? &&
        Index(records, spec).error == KeyOf(spec, records[i]).error &&
        forall j :: 0 <= j < i ==> KeyOf(spec, records[j]).Ok?
  {
    if SpecError(spec).None? {
      BuildError(records, spec);
    }
  }

  /** A one-element tuple key indexes exactly as the bare field name does. */
  lemma {:induction false} SingleFieldTupleIsScalar(records: seq<Record>, name: string)
    ensures Index(records, Fields([name])) == Index(records, Field(name))
  {
    if records != [] {
      SingleFieldTupleIsScalar(records[..|records| - 1], name);
    }
  }

  /** The key of a record under a field-name key. */
  lemma FieldKey(name: string, r: Record)
    ensures KeyOf(Field(name), r) ==
      if name !in r then Err(MissingField(name))
      else if Hashable(r[name]) then Ok(r[name])
      else Err(Unhashable(r[name]))
  {
  }

  /** With a field-name key: indexing succeeds exactly when every record has
      the field with a hashable value; the keys are then exactly the values
      of that field, and each maps to the last record having that value. */
  lemma FieldIndex(records: seq<Record>, name: string)
    ensures Index(records, Field(name)).Ok? <==>
      forall i :: 0 <= i < |records| ==> name in records[i] && Hashable(records[i][name])
    ensures Index(records, Field(name)).Ok? ==>
      Index(records, Field(name)).value.Keys == set i | 0 <= i < |records| :: records[i][name]
    ensures Index(records, Field(name)).Ok? ==>
      forall i :: 0 <= i < |records| && (forall j :: i < j < |records| ==> records[j][name] != records[i][name]) ==>
        Index(records, Field(name)).value[records[i][name]] == records[i]
  {
    var spec := Field(name);
    IndexCharacterized(records, spec);
    forall i | 0 <= i < |records|
      ensures KeyOf(spec, records[i]).Ok? <==> name in records[i] && Hashable(records[i][name])
      ensures KeyOf(spec, records[i]).Ok? ==> KeyOf(spec, records[i]).value == records[i][name]
    {
      FieldKey(name, records[i]);
    }
    if Index(records, spec).Ok? {
      var m := Index(records, spec).value;
      var keys := set i | 0 <= i < |records| :: records[i][name];
      forall k | k in m ensures k in keys {
        var i :| LastWithKey(records, spec, i, k) && m[k] == records[i];
      }
      forall k | k in keys ensures k in m {
        var i :| 0 <= i < |records| && records[i][name] == k;
      }
      forall i | 0 <= i < |records| && (forall j :: i < j < |records| ==> records[j][name] != records[i][name])
        ensures m[records[i][name]] == records[i]
      {
        IndexLastWins(records, spec, i);
      }
    }
  }

  /** The key of a record under a tuple key of two or more fields. */
  lemma TupleKey(names: seq<string>, r: Record)
    requires |names| >= 2
    requires forall j :: 0 <= j < |names| ==> names[j] in r
    ensures KeyOf(Fields(names), r).Ok? ==>
      KeyOf(Fields(names), r).value == Tuple(seq(|names|, j requires 0 <= j < |names| => r[names[j]]))
  {
    var vs := FieldValues(r, names);
    assert vs.value == seq(|names|, j requires 0 <= j < |names| => r[names[j]]);
  }

  /** With a tuple key of two or more fields: indexing succeeds only when
      every record has all of the fields, and the key of a record is then
      the tuple of its field values in the given order. */
  lemma TupleIndex(records: seq<Record>, names: seq<string>)
    requires |names| >= 2
    ensures Index(records, Fields(names)).Ok? ==>
      forall i :: 0 <= i < |records| ==>
        (forall j :: 0 <= j < |names| ==> names[j] in records[i]) &&
        Tuple(seq(|names|, j requires 0 <= j < |names| => records[i][names[j]])) in Index(records, Fields(names)).value
  {
    var spec := Fields(names);
    IndexCharacterized(records, spec);
    if Index(records, spec).Ok? {
      forall i | 0 <= i < |records|
        ensures (forall j :: 0 <= j < |names| ==> names[j] in records[i]) &&
          KeyOf(spec, records[i]).value == Tuple(seq(|names|, j requires 0 <= j < |names| => records[i][names[j]]))
      {
        assert FieldValues(records[i], names).Ok?;
        TupleKey(names, records[i]);
      }
    }
  }

  /** The two-field case: a record is found under the pair of its two field
      values unless a later record has the same pair. */
  lemma PairIndexLookup(records: seq<Record>, a: string, b: string, i: int)
    requires Index(records, Fields([a, b])).Ok?
    requires 0 <= i < |records|
    requires forall j :: i < j < |records| ==>
      !(a in records[j] && b in records[j] && a in records[i] && b in records[i] &&
        records[j][a] == records[i][a] && records[j][b] == records[i][b])
    ensures a in records[i] && b in records[i]
    ensures Tuple([records[i][a], records[i][b]]) in Index(records, Fields([a, b])).value
    ensures Index(records, Fields([a, b])).value[Tuple([records[i][a], records[i][b]])] == records[i]
  {
    var spec := Fields([a, b]);
    IndexCharacterized(records, spec);
    forall j | 0 <= j < |records|
      ensures a in records[j] && b in records[j]
      ensures KeyOf(spec, records[j]) == Ok(Tuple([records[j][a], records[j][b]]))
    {
      PairKey(a, b, records[j]);
    }
    IndexLastWins(records, spec, i);
  }

  /** The key of a record under a two-field tuple key. */
  lemma PairKey(a: string, b: string, r: Record)
    requires KeyOf(Fields([a, b]), r).Ok?
    ensures a in r && b in r
    ensures KeyOf(Fields([a, b]), r) == Ok(Tuple([r[a], r[b]]))
  {
    var names := [a, b];
    var vs := FieldValues(r, names);
    assert vs.Ok?;
    assert names[0] in r && names[1] in r;
    assert vs.value == [r[a], r[b]];
  }

  /** The key of a record under a derivation function. */
  lemma DeriveKey(f: Record -> Value, r: Record)
    ensures KeyOf(Derive(f), r) == if Hashable(f(r)) then Ok(f(r)) else Err(Unhashable(f(r)))
  {
  }

  /** With a derivation function: indexing succeeds exactly when every
      derived key is hashable; each record is stored under f(record), and a
      later record overwrites an earlier one with the same derived key. */
  lemma DeriveIndex(records: seq<Record>, f: Record -> Value)
    ensures Index(records, Derive(f)).Ok? <==>
      forall i :: 0 <= i < |records| ==> Hashable(f(records[i]))
    ensures Index(records, Derive(f)).Ok? ==>
      Index(records, Derive(f)).value.Keys == set i | 0 <= i < |records| :: f(records[i])
    ensures Index(records, Derive(f)).Ok? ==>
      forall i :: 0 <= i < |records| && (forall j :: i < j < |records| ==> f(records[j]) != f(records[i])) ==>
        Index(records, Derive(f)).value[f(records[i])] == records[i]
  {
    var spec := Derive(f);
    IndexCharacterized(records, spec);
    forall i | 0 <= i < |records|
      ensures KeyOf(spec, records[i]) == if Hashable(f(records[i])) then Ok(f(records[i])) else Err(Unhashable(f(records[i])))
    {
      DeriveKey(f, records[i]);
    }
    if Index(records, spec).Ok? {
      var m := Index(records, spec).value;
      var keys := set i | 0 <= i < |records| :: f(records[i]);
      forall k | k in m ensures k in keys {
        var i :| LastWithKey(records, spec, i, k) && m[k] == records[i];
      }
      forall k | k in keys ensures k in m {
        var i :| 0 <= i < |records| && f(records[i]) == k;
      }
      forall i | 0 <= i < |records| && (forall j :: i < j < |records| ==> f(records[j]) != f(records[i]))
        ensures m[f(records[i])] == records[i]
      {
        IndexLastWins(records, spec, i);
      }
    }
  }
}

=== FILE: search.dfy ===
/** The web-UI search tool: the `search_parameters` cookie that selects the
    categories, the GET of the search page, and the four extractors that turn
    the page into lists of IDs or, on request, of full records. */
module Search {
  import opened Values
  import opened Http
  import opened Client

  /** The categories of DEFAULT_SEARCH_PARAMS, in its order. */
  const SearchKeys: seq<string> := ["addresses", "subnets", "vlans", "vrf", "pstn", "circuits"]

  /** DEFAULT_SEARCH_PARAMS. */
  const DefaultSearchParams: map<string, string> :=
    map["addresses" := "on", "subnets" := "on", "vlans" := "on", "vrf" := "on",
        "pstn" := "off", "circuits" := "off"]

  /** The keys of every search result. The VRF results are under `vrfs`,
      while the cookie calls the category `vrf`. */
  const ResultKeys: set<string> := {"subnets", "addresses", "vlans", "vrfs"}

  /** `sp` is the cookie for the keyword options `options` (only their
      names matter): every category of the defaults is present and no other
      name; with no options it is the defaults, otherwise a category is
      "on" exactly when it was named. */
  ghost predicate DescribesOptions(options: set<string>, sp: map<string, string>)
  {
    && sp.Keys == DefaultSearchParams.Keys
    && (forall p :: p in sp ==> sp[p] == "on" || sp[p] == "off")
    && (options == {} ==> sp == DefaultSearchParams)
    && (options != {} ==> forall p :: p in sp ==> (sp[p] == "on" <==> p in options))
  }

  /** The cookie computation of `search`: a copy of the defaults when no
      option is given; otherwise each default category in turn set to "on"
      if it is among the options and "off" if not. */
  method SearchParameters(options: set<string>) returns (sp: map<string, string>)
    ensures DescribesOptions(options, sp)
  {
    sp := map[];
    if options != {} {
      var i := 0;
      while i < |SearchKeys|
        invariant 0 <= i <= |SearchKeys|
        invariant sp.Keys == set j | 0 <= j < i :: SearchKeys[j]
        invariant forall p :: p in sp ==> sp[p] == (if p in options then "on" else "off")
      {
        var p := SearchKeys[i];
        sp := sp[p := if p in options then "on" else "off"];
        i := i + 1;
      }
      assert sp.Keys == DefaultSearchParams.Keys by {
        assert (set j | 0 <= j < |SearchKeys| :: SearchKeys[j]) == DefaultSearchParams.Keys by {
          assert SearchKeys[0] == "addresses" && SearchKeys[1] == "subnets" && SearchKeys[2] == "vlans";
          assert SearchKeys[3] == "vrf" && SearchKeys[4] == "pstn" && SearchKeys[5] == "circuits";
        }
      }
    } else {
      sp := DefaultSearchParams;
    }
  }

  /** Once some option is given, adding option names outside the six
      categories leaves the cookie as it was. */
  lemma CookieIgnoresUnknownOptions(options: set<string>, extra: set<string>, sp: map<string, string>, sp': map<string, string>)
    requires options != {} && extra !! DefaultSearchParams.Keys
    requires DescribesOptions(options, sp) && DescribesOptions(options + extra, sp')
    ensures sp == sp'
  {
    forall p | p in sp ensures sp[p] == sp'[p] {
      assert p in options + extra <==> p in options;
    }
  }

  /** Options that name none of the six categories are still options: the
      defaults are not used, and every category is switched off. */
  lemma UnknownOptionsSwitchAllOff(options: set<string>, sp: map<string, string>)
    requires options != {} && options !! DefaultSearchParams.Keys
    requires DescribesOptions(options, sp)
    ensures forall p :: p in sp ==> sp[p] == "off"
    ensures sp != DefaultSearchParams
  {
    assert "addresses" in DefaultSearchParams.Keys && "addresses" !in options;
    assert sp["addresses"] == "off";
  }

  /** The IDs as the result lists them when `return_ids` is true. */
  function IdValues(ids: seq<string>): (vs: seq<Value>)
    ensures |vs| == |ids| && forall i :: 0 <= i < |ids| ==> vs[i] == Str(ids[i])
  {
    seq(|ids|, i requires 0 <= i < |ids| => Str(ids[i]))
  }

  /** The IDs a VLAN or VRF extractor finds: none when the results heading
      is absent, otherwise those of the table after it. */
  function SectionIds(s: Section): seq<string>
  {
    match s
    case NoHeading => []
    case Heading(ids) => ids
  }

  /** The IDs each extraction rule finds in the page, by result key. */
  function CategoryIds(page: Page, key: string): seq<string>
    requires key in ResultKeys
  {
    if key == "subnets" then page.subnetRows
    else if key == "addresses" then page.addressRows
    else if key == "vlans" then SectionIds(page.vlans)
    else SectionIds(page.vrfs)
  }

  /** What one extractor returns: its IDs when `return_ids` is true, else
      the outcome of fetching each of them from the controller of the same
      name. */
  function CategoryItems(fetch: string -> Response, ids: seq<string>, returnIds: bool): Result<seq<Value>, Error>
  {
    if returnIds then Ok(IdValues(ids)) else FetchAll(fetch, ids)
  }

  /** The fetch function of the client's controller `key`. */
  function FetcherFor(api: ApiSession, key: string): string -> Response
    reads api
  {
    Fetcher(api.server, api.Prefix(), api.token, RootPath(key))
  }

  /** What `search` returns once the page is in hand: the four extractors run
      in the order subnets, addresses, vlans, vrfs, the first failure ending
      the search; otherwise a result with exactly the keys `subnets`,
      `addresses`, `vlans` and `vrfs`. */
  function Assemble(page: Page, returnIds: bool, server: Request -> Response, prefix: string, token: Option<Value>): (r: Result<map<string, seq<Value>>, Error>)
    ensures r.Ok? ==> r.value.Keys == ResultKeys
    ensures returnIds ==> r.Ok? && forall key :: key in ResultKeys ==> r.value[key] == IdValues(CategoryIds(page, key))
  {
    var s := CategoryItems(Fetcher(server, prefix, token, RootPath("subnets")), page.subnetRows, returnIds);
    var a := CategoryItems(Fetcher(server, prefix, token, RootPath("addresses")), page.addressRows, returnIds);
    var v := CategoryItems(Fetcher(server, prefix, token, RootPath("vlans")), SectionIds(page.vlans), returnIds);
    var f := CategoryItems(Fetcher(server, prefix, token, RootPath("vrfs")), SectionIds(page.vrfs), returnIds);
    if s.Err? then Err(s.error)
    else if a.Err? then Err(a.error)
    else if v.Err? then Err(v.error)
    else if f.Err? then Err(f.error)
    else Ok(map["subnets" := s.value, "addresses" := a.value, "vlans" := v.value, "vrfs" := f.value])
  }

  /** The result keys in the order the extractors run. */
  const ResultOrder: seq<string> := ["subnets", "addresses", "vlans", "vrfs"]

  /** The outcome of fetching, from the controller of `key`, every ID its
      extraction rule finds in the page. */
  function CategoryOutcome(page: Page, server: Request -> Response, prefix: string, token: Option<Value>, key: string): Result<seq<Value>, Error>
    requires key in ResultKeys
  {
    FetchAll(Fetcher(server, prefix, token, RootPath(key)), CategoryIds(page, key))
  }

  /** The four categories' outcomes are what `Assemble` combines when
      records are requested. */
  lemma AssembleParts(page: Page, server: Request -> Response, prefix: string, token: Option<Value>)
    ensures var r := Assemble(page, false, server, prefix, token);
      var s := CategoryOutcome(page, server, prefix, token, "subnets");
      var a := CategoryOutcome(page, server, prefix, token, "addresses");
      var v := CategoryOutcome(page, server, prefix, token, "vlans");
      var f := CategoryOutcome(page, server, prefix, token, "vrfs");
      && (s.Err? ==> r == Err(s.error))
      && (s.Ok? && a.Err? ==> r == Err(a.error))
      && (s.Ok? && a.Ok? && v.Err? ==> r == Err(v.error))
      && (s.Ok? && a.Ok? && v.Ok? && f.Err? ==> r == Err(f.error))
      && (r.Ok? <==> s.Ok? && a.Ok? && v.Ok? && f.Ok?)
  {
  }

  /** With records requested, the search succeeds exactly when every
      category's fetches succeed. */
  lemma AssembleSucceedsIffAllCategories(page: Page, server: Request -> Response, prefix: string, token: Option<Value>)
    ensures Assemble(page, false, server, prefix, token).Ok? <==>
      forall key :: key in ResultKeys ==> CategoryOutcome(page, server, prefix, token, key).Ok?
  {
    AssembleParts(page, server, prefix, token);
    if Assemble(page, false, server, prefix, token).Ok? {
      forall key | key in ResultKeys ensures CategoryOutcome(page, server, prefix, token, key).Ok? {
      }
    }
  }

  /** The outcome of fetching every ID of the category at position `i` of
      `ResultOrder` from that category's controller. */
  function OrderedOutcome(page: Page, server: Request -> Response, prefix: string, token: Option<Value>, i: nat): Result<seq<Value>, Error>
    requires i < |ResultOrder|
  {
    var ids := [page.subnetRows, page.addressRows, SectionIds(page.vlans), SectionIds(page.vrfs)][i];
    FetchAll(Fetcher(server, prefix, token, RootPath(ResultOrder[i])), ids)
  }

  /** Position `i` of `ResultOrder` names a result key, and its outcome is
      that category's. */
  lemma OrderedOutcomeOfCategory(page: Page, server: Request -> Response, prefix: string, token: Option<Value>, i: nat)
    requires i < |ResultOrder|
    ensures ResultOrder[i] in ResultKeys
    ensures OrderedOutcome(page, server, prefix, token, i) == CategoryOutcome(page, server, prefix, token, ResultOrder[i])
  {
  }

  /** A failing search raises the error of the first failing category in the
      order subnets, addresses, vlans, vrfs. */
  lemma AssembleFailsAtFirstCategory(page: Page, server: Request -> Response, prefix: string, token: Option<Value>)
    requires Assemble(page, false, server, prefix, token).Err?
    ensures exists i ::
      && 0 <= i < |ResultOrder|
      && OrderedOutcome(page, server, prefix, token, i).Err?
      && Assemble(page, false, server, prefix, token).error == OrderedOutcome(page, server, prefix, token, i).error
      && forall j :: 0 <= j < i ==> OrderedOutcome(page, server, prefix, token, j).Ok?
  {
    AssembleInOrder(page, server, prefix, token);
    var s := OrderedOutcome(page, server, prefix, token, 0);
    var a := OrderedOutcome(page, server, prefix, token, 1);
    var v := OrderedOutcome(page, server, prefix, token, 2);
    var i := if s.Err? then 0 else if a.Err? then 1 else if v.Err? then 2 else 3;
    assert forall j :: 0 <= j < i ==> OrderedOutcome(page, server, prefix, token, j).Ok?;
  }

  /** With records requested, `Assemble` takes the outcomes in the order of
      `ResultOrder` and stops at the first error. */
  lemma AssembleInOrder(page: Page, server: Request -> Response, prefix: string, token: Option<Value>)
    ensures var r := Assemble(page, false, server, prefix, token);
      var s := OrderedOutcome(page, server, prefix, token, 0);
      var a := OrderedOutcome(page, server, prefix, token, 1);
      var v := OrderedOutcome(page, server, prefix, token, 2);
      var f := OrderedOutcome(page, server, prefix, token, 3);
      r.Err? ==> r.error == (if s.Err? then s.error else if a.Err? then a.error else if v.Err? then v.error else f.error)
    ensures var r := Assemble(page, false, server, prefix, token);
      r.Err? <==> exists j :: 0 <= j < |ResultOrder| && OrderedOutcome(page, server, prefix, token, j).Err?
  {
  }

  /** The GETs one extractor sends: none when only IDs are returned,
      otherwise one per ID up to and including the first failing one. */
  function CategoryTraffic(server: Request -> Response, prefix: string, token: Option<Value>, key: string, ids: seq<string>, returnIds: bool): (t: seq<Request>)
    ensures |t| <= |ids|
    ensures forall i :: 0 <= i < |t| ==> t[i] == GetRequest(prefix, RootPath(key), token, ids[i])
    ensures !returnIds && FetchAll(Fetcher(server, prefix, token, RootPath(key)), ids).Ok? ==> |t| == |ids|
  {
    if returnIds then []
    else
      var fetch := Fetcher(server, prefix, token, RootPath(key));
      GetRequests(prefix, RootPath(key), token, ids[..Attempts(fetch, ids)])
  }

  /** The GETs the four extractors send in turn, no extractor running after
      a failing one. */
  function AssembleTraffic(page: Page, returnIds: bool, server: Request -> Response, prefix: string, token: Option<Value>): seq<Request>
  {
    var s := CategoryItems(Fetcher(server, prefix, token, RootPath("subnets")), page.subnetRows, returnIds);
    var a := CategoryItems(Fetcher(server, prefix, token, RootPath("addresses")), page.addressRows, returnIds);
    var v := CategoryItems(Fetcher(server, prefix, token, RootPath("vlans")), SectionIds(page.vlans), returnIds);
    var ts := CategoryTraffic(server, prefix, token, "subnets", page.subnetRows, returnIds);
    var ta := CategoryTraffic(server, prefix, token, "addresses", page.addressRows, returnIds);
    var tv := CategoryTraffic(server, prefix, token, "vlans", SectionIds(page.vlans), returnIds);
    var tf := CategoryTraffic(server, prefix, token, "vrfs", SectionIds(page.vrfs), returnIds);
    if s.Err? then ts
    else if a.Err? then ts + ta
    else if v.Err? then ts + ta + tv
    else ts + ta + tv + tf
  }

  lemma AppendAssociative(x: seq<Request>, y: seq<Request>, z: seq<Request>)
    ensures x + (y + z) == x + y + z
  {
  }

  /** With `return_ids` false and a successful search, each category holds
      one record per ID found in the page, in page order: the `data` of
      that ID's response from the category's controller. A VLAN or VRF
      section without its heading yields an empty list. */
  lemma ExpandedResult(page: Page, server: Request -> Response, prefix: string, token: Option<Value>)
    requires Assemble(page, false, server, prefix, token).Ok?
    ensures forall key :: key in ResultKeys ==>
      var ids := CategoryIds(page, key);
      var items := Assemble(page, false, server, prefix, token).value[key];
      && |items| == |ids|
      && forall i :: 0 <= i < |ids| ==>
           items[i] == Fetcher(server, prefix, token, RootPath(key))(ids[i]).data.value
    ensures page.vlans.NoHeading? ==> Assemble(page, false, server, prefix, token).value["vlans"] == []
    ensures page.vrfs.NoHeading? ==> Assemble(page, false, server, prefix, token).value["vrfs"] == []
  {
    forall key | key in ResultKeys
      ensures var ids := CategoryIds(page, key);
        var items := Assemble(page, false, server, prefix, token).value[key];
        && |items| == |ids|
        && forall i :: 0 <= i < |ids| ==>
             items[i] == Fetcher(server, prefix, token, RootPath(key))(ids[i]).data.value
    {
      FetchAllSuccess(Fetcher(server, prefix, token, RootPath(key)), CategoryIds(page, key));
    }
    FetchAllSuccess(Fetcher(server, prefix, token, RootPath("vlans")), SectionIds(page.vlans));
    FetchAllSuccess(Fetcher(server, prefix, token, RootPath("vrfs")), SectionIds(page.vrfs));
  }

  /** `after` is `before`, or, once the controller for `key` has been
      used, `before` with that controller added if it was missing. */
  ghost predicate RootAdded(before: map<string, Controller>, after: map<string, Controller>, key: string, used: bool)
  {
    if !used then after == before
    else
      && key in after
      && after == before[key := after[key]]
      && (key in before ==> after[key] == before[key])
  }

  /** One pass of the extractor loop: `getattr(client, key)` (created on
      first use) fetches `id`; the response is the one `FetcherFor` gives. */
  method FetchOne(client: PhpIpamClient, key: string, id: string) returns (res: Response)
    requires client.Valid()
    modifies client, client.api
    ensures client.Valid()
    ensures client.api.token == old(client.api.token)
    ensures res == FetcherFor(client.api, key)(id)
    ensures client.api.sent == old(client.api.sent) + [GetRequest(client.api.Prefix(), RootPath(key), client.api.token, id)]
    ensures key in client.controllers && client.controllers == old(client.controllers)[key := client.controllers[key]]
    ensures key in old(client.controllers) ==> client.controllers[key] == old(client.controllers[key])
    ensures key !in old(client.controllers) ==> fresh(client.controllers[key]) && client.controllers[key].catalog == map[]
  {
    var controller := client.Root(key);
    res := controller.Call(Get, id, NoPayload);
    FetcherApplied(client.api.server, client.api.Prefix(), client.api.token, RootPath(key), id);
  }

  /** The loop of an extractor when records are requested: for each ID, the
      client's controller for `key` (created on first use, so only when
      there is at least one ID) fetches it, the status is checked and the
      `data` collected. */
  method FetchEach(client: PhpIpamClient, key: string, ids: seq<string>) returns (r: Result<seq<Value>, Error>)
    requires client.Valid()
    modifies client, client.api
    ensures client.Valid()
    ensures client.api.token == old(client.api.token)
    ensures var fetch := FetcherFor(client.api, key);
      && r == FetchAll(fetch, ids)
      && client.api.sent == old(client.api.sent) +
           GetRequests(client.api.Prefix(), RootPath(key), client.api.token, ids[..Attempts(fetch, ids)])
    ensures ids == [] ==> client.controllers == old(client.controllers)
    ensures ids != [] ==>
      key in client.controllers && client.controllers == old(client.controllers)[key := client.controllers[key]]
    ensures ids != [] && key in old(client.controllers) ==> client.controllers[key] == old(client.controllers[key])
    ensures ids != [] && key !in old(client.controllers) ==>
      fresh(client.controllers[key]) && client.controllers[key].catalog == map[]
  {
    var api := client.api;
    ghost var fetch := FetcherFor(api, key);
    ghost var prefix, token := api.Prefix(), api.token;
    var found: seq<Value> := [];
    var i := 0;
    while i < |ids|
      invariant 0 <= i <= |ids|
      invariant client.Valid()
      invariant api.token == token
      invariant i <= FirstFailure(fetch, ids)
      invariant found == DataOf(fetch, ids[..i])
      invariant api.sent == old(api.sent) + GetRequests(prefix, RootPath(key), token, ids[..i])
      invariant RootAdded(old(client.controllers), client.controllers, key, i > 0)
      invariant i > 0 && key !in old(client.controllers) ==>
        fresh(client.controllers[key]) && client.controllers[key].catalog == map[]
    {
      var res := FetchOne(client, key, ids[i]);
      RequestsStep(prefix, RootPath(key), token, ids, i);
      FetchStep(fetch, ids, i);
      if Fails(res) {
        if RaisesForStatus(res.status) {
          return Err(HttpError(res.status));
        }
        return Err(MissingKey("data"));
      }
      found := found + [res.data.value];
      i := i + 1;
    }
    FetchDone(fetch, ids);
    return Ok(found);
  }

  /** One extractor, `extracto_subnets` and its three siblings, given the
      IDs its rule found in the page. */
  method Extract(client: PhpIpamClient, key: string, ids: seq<string>, returnIds: bool) returns (r: Result<seq<Value>, Error>)
    requires client.Valid()
    modifies client, client.api
    ensures client.Valid()
    ensures client.api.token == old(client.api.token)
    ensures r == CategoryItems(FetcherFor(client.api, key), ids, returnIds)
    ensures client.api.sent == old(client.api.sent) +
      CategoryTraffic(client.api.server, client.api.Prefix(), client.api.token, key, ids, returnIds)
    ensures returnIds ==> client.controllers == old(client.controllers)
    ensures forall n :: n in old(client.controllers) ==> n in client.controllers && client.controllers[n] == old(client.controllers[n])
    ensures client.controllers.Keys <= old(client.controllers).Keys + {key}
    ensures forall n :: n in client.controllers && n !in old(client.controllers) ==>
      fresh(client.controllers[n]) && client.controllers[n].catalog == map[]
  {
    if returnIds {
      return Ok(IdValues(ids));
    }
    r := FetchEach(client, key, ids);
  }

  /** Two extractors run in turn, the second only when the first did not
      raise. */
  method ExtractPair(client: PhpIpamClient, key1: string, ids1: seq<string>, key2: string, ids2: seq<string>, returnIds: bool)
    returns (r1: Result<seq<Value>, Error>, r2: Result<seq<Value>, Error>)
    requires client.Valid()
    modifies client, client.api
    ensures client.Valid()
    ensures client.api.token == old(client.api.token)
    ensures r1 == CategoryItems(FetcherFor(client.api, key1), ids1, returnIds)
    ensures r1.Ok? ==> r2 == CategoryItems(FetcherFor(client.api, key2), ids2, returnIds)
    ensures r1.Err? ==> r2 == r1
    ensures var t1 := CategoryTraffic(client.api.server, client.api.Prefix(), client.api.token, key1, ids1, returnIds);
      var t2 := CategoryTraffic(client.api.server, client.api.Prefix(), client.api.token, key2, ids2, returnIds);
      client.api.sent == old(client.api.sent) + t1 + (if r1.Err? then [] else t2)
    ensures returnIds ==> client.controllers == old(client.controllers)
    ensures forall n :: n in old(client.controllers) ==> n in client.controllers && client.controllers[n] == old(client.controllers[n])
    ensures client.controllers.Keys <= old(client.controllers).Keys + {key1, key2}
    ensures forall n :: n in client.controllers && n !in old(client.controllers) ==>
      fresh(client.controllers[n]) && client.controllers[n].catalog == map[]
  {
    r1 := Extract(client, key1, ids1, returnIds);
    if r1.Err? {
      r2 := r1;
      return;
    }
    r2 := Extract(client, key2, ids2, returnIds);
  }

  /** The four extractors of `search` run on the page in the order subnets,
      addresses, vlans, vrfs; the first that raises ends the search. */
  method Results(client: PhpIpamClient, page: Page, returnIds: bool) returns (r: Result<map<string, seq<Value>>, Error>)
    requires client.Valid()
    modifies client, client.api
    ensures client.Valid()
    ensures client.api.token == old(client.api.token)
    ensures r == Assemble(page, returnIds, client.api.server, client.api.Prefix(), client.api.token)
    ensures client.api.sent == old(client.api.sent) +
      AssembleTraffic(page, returnIds, client.api.server, client.api.Prefix(), client.api.token)
    ensures returnIds ==> client.controllers == old(client.controllers)
    ensures forall n :: n in old(client.controllers) ==> n in client.controllers && client.controllers[n] == old(client.controllers[n])
    ensures client.controllers.Keys <= old(client.controllers).Keys + ResultKeys
    ensures forall n :: n in client.controllers && n !in old(client.controllers) ==>
      fresh(client.controllers[n]) && client.controllers[n].catalog == map[]
  {
    ghost var server, prefix, token := client.api.server, client.api.Prefix(), client.api.token;
    ghost var ts := CategoryTraffic(server, prefix, token, "subnets", page.subnetRows, returnIds);
    ghost var ta := CategoryTraffic(server, prefix, token, "addresses", page.addressRows, returnIds);
    ghost var tv := CategoryTraffic(server, prefix, token, "vlans", SectionIds(page.vlans), returnIds);
    ghost var tf := CategoryTraffic(server, prefix, token, "vrfs", SectionIds(page.vrfs), returnIds);
    ghost var sent0 := client.api.sent;
    ghost var traffic := AssembleTraffic(page, returnIds, server, prefix, token);
    var subnets, addresses := ExtractPair(client, "subnets", page.subnetRows, "addresses", page.addressRows, returnIds);
    if subnets.Err? {
      assert client.api.sent == sent0 + ts && traffic == ts;
      return Err(subnets.error);
    }
    ghost var sent1 := client.api.sent;
    assert sent1 == sent0 + ts + ta;
    if addresses.Err? {
      assert traffic == ts + ta;
      AppendAssociative(sent0, ts, ta);
      return Err(addresses.error);
    }
    var vlans, vrfs := ExtractPair(client, "vlans", SectionIds(page.vlans), "vrfs", SectionIds(page.vrfs), returnIds);
    AppendAssociative(sent0, ts, ta);
    AppendAssociative(sent0, ts + ta, tv);
    if vlans.Err? {
      assert client.api.sent == sent1 + tv && traffic == ts + ta + tv;
      return Err(vlans.error);
    }
    assert client.api.sent == sent1 + tv + tf && traffic == ts + ta + tv + tf;
    AppendAssociative(sent0, ts + ta + tv, tf);
    if vrfs.Err? {
      return Err(vrfs.error);
    }
    r := Ok(map["subnets" := subnets.value, "addresses" := addresses.value,
                "vlans" := vlans.value, "vrfs" := vrfs.value]);
  }

  /** `search(client, find, search_options, return_ids)`: the cookie is
      stored in the web session before the search page is fetched; a bad
      status of that page ends the search before anything is extracted;
      otherwise the result is `Assemble` of the page, and the API traffic is
      that of the extractors (none when only IDs are returned). */
  method Search(client: PhpIpamClient, find: string, options: set<string>, returnIds: bool)
    returns (r: Result<map<string, seq<Value>>, Error>)
    requires client.Valid()
    modifies client, client.api, client.webui
    ensures client.Valid()
    ensures client.api.token == old(client.api.token)
    ensures client.webui.searchParameters.Some? && DescribesOptions(options, client.webui.searchParameters.value)
    ensures var req := WebRequest(Get, client.api.host + "/tools/search/" + find, client.webui.searchParameters, NoPayload);
      var res := client.webui.server(req);
      && client.webui.sent == old(client.webui.sent) + [req]
      && (RaisesForStatus(res.status) ==>
            r == Err(HttpError(res.status)) && client.api.sent == old(client.api.sent) &&
            client.controllers == old(client.controllers))
      && (!RaisesForStatus(res.status) ==>
            r == Assemble(res.page, returnIds, client.api.server, client.api.Prefix(), client.api.token) &&
            client.api.sent == old(client.api.sent) +
              AssembleTraffic(res.page, returnIds, client.api.server, client.api.Prefix(), client.api.token))
    ensures returnIds ==> client.api.sent == old(client.api.sent) && client.controllers == old(client.controllers)
    ensures forall n :: n in old(client.controllers) ==> n in client.controllers && client.controllers[n] == old(client.controllers[n])
    ensures client.controllers.Keys <= old(client.controllers).Keys + ResultKeys
    ensures forall n :: n in client.controllers && n !in old(client.controllers) ==>
      fresh(client.controllers[n]) && client.controllers[n].catalog == map[]
  {
    var sp := SearchParameters(options);
    client.webui.searchParameters := Some(sp);
    var res := client.webui.Send(Get, client.api.host + "/tools/search/" + find, NoPayload);
    if RaisesForStatus(res.status) {
      return Err(HttpError(res.status));
    }
    r := Results(client, res.page, returnIds);
  }
}

=== FILE: utils.dfy ===
/** The stand-alone helpers: `create_index`, the module-level twin of the
    client's indexer, and `expand_ids`, which fetches full records for a list
    of IDs one at a time and reports a 400 with the records already fetched. */
module Utils {
  import opened Values
  import opened Indexing
  import opened Http
  import opened Client

  /** `create_index(list_of_dict, key)`: the same computation as the
      client's `index`, hence the same result, the same success condition
      and the same error for every key form and every list of records. */
  function CreateIndex(records: seq<Record>, key: KeySpec): (r: Result<map<Value, Record>, IndexError>)
    ensures r == Index(records, key)
    ensures r.Ok? <==> (SpecError(key).None? && forall i :: 0 <= i < |records| ==> KeyOf(key, records[i]).Ok?)
    ensures r.Ok? ==> IsIndexOf(records, key, r.value)
    ensures SpecError(key).Some? ==> r == Err(SpecError(key).value)
    ensures r.Err? && SpecError(key).None? ==>
      exists i :: 0 <= i < |records| && KeyOf(key, records[i]).Err? &&
        r.error == KeyOf(key, records[i]).error &&
        forall j :: 0 <= j < i ==> KeyOf(key, records[j]).Ok?
  {
    IndexCharacterized(records, key);
    if Index(records, key).Err? then
      IndexErrorIsFirst(records, key);
      Index(records, key)
    else
      Index(records, key)
  }

  /** What `expand_ids` computes: the `data` of every ID's response in
      order; or, at the first failing response, a partial-expansion error
      carrying the data of the earlier IDs, the ID and the response when the
      status is 400, and the plain error otherwise. */
  function Expand(fetch: string -> Response, ids: seq<string>): (r: Result<seq<Value>, Error>)
    ensures r.Ok? ==> |r.value| == |ids|
    ensures r.Err? && r.error.PartialExpansion? ==>
      && |r.error.found| < |ids| && r.error.id == ids[|r.error.found|]
      && r.error.response == fetch(r.error.id) && r.error.response.status == BadRequest
    ensures r.Err? && !r.error.PartialExpansion? ==>
      (r.error.HttpError? && r.error.status != BadRequest) || r.error == MissingKey("data")
  {
    var n := FirstFailure(fetch, ids);
    if n == |ids| then Ok(DataOf(fetch, ids))
    else
      var res := fetch(ids[n]);
      if res.status == BadRequest then Err(PartialExpansion(DataOf(fetch, ids[..n]), ids[n], res))
      else Err(FailureOf(res))
  }

  /** On success there is one item per ID, in input order: the `data` of
      that ID's response; success means no response failed. */
  lemma ExpandSuccess(fetch: string -> Response, ids: seq<string>)
    ensures Expand(fetch, ids).Ok? <==> forall i :: 0 <= i < |ids| ==> !Fails(fetch(ids[i]))
    ensures Expand(fetch, ids).Ok? ==>
      |Expand(fetch, ids).value| == |ids| &&
      forall i :: 0 <= i < |ids| ==> Expand(fetch, ids).value[i] == fetch(ids[i]).data.value
  {
    var n := FirstFailure(fetch, ids);
    if n < |ids| {
      assert Fails(fetch(ids[n]));
    }
  }

  /** A partial-expansion error names the first failing ID, whose response
      has status 400, and carries the data of exactly the IDs before it. */
  lemma ExpandPartial(fetch: string -> Response, ids: seq<string>)
    requires Expand(fetch, ids).Err? && Expand(fetch, ids).error.PartialExpansion?
    ensures var e := Expand(fetch, ids).error;
      var n := |e.found|;
      && n < |ids| && e.id == ids[n] && e.response == fetch(ids[n]) && e.response.status == BadRequest
      && Attempts(fetch, ids) == n + 1
      && forall i :: 0 <= i < n ==> !Fails(fetch(ids[i])) && e.found[i] == fetch(ids[i]).data.value
  {
  }

  /** Any other failure carries no partial result: it is the error of the
      first failing response, whose status is not 400. */
  lemma ExpandOtherFailure(fetch: string -> Response, ids: seq<string>)
    requires Expand(fetch, ids).Err? && !Expand(fetch, ids).error.PartialExpansion?
    ensures var n := FirstFailure(fetch, ids);
      && n < |ids| && fetch(ids[n]).status != BadRequest
      && Expand(fetch, ids).error == FailureOf(fetch(ids[n]))
      && (Expand(fetch, ids).error.HttpError? || Expand(fetch, ids).error == MissingKey("data"))
  {
  }

  /** `expand_ids` differs from a plain fetch-each loop only when the first
      failing response has status 400. */
  lemma ExpandAgreesWithFetchAll(fetch: string -> Response, ids: seq<string>)
    ensures var n := FirstFailure(fetch, ids);
      (n == |ids| || fetch(ids[n]).status != BadRequest) <==> Expand(fetch, ids) == FetchAll(fetch, ids)
  {
    var n := FirstFailure(fetch, ids);
    if n < |ids| && fetch(ids[n]).status == BadRequest {
      assert Expand(fetch, ids).error.PartialExpansion?;
      assert FetchAll(fetch, ids).error == HttpError(BadRequest);
    }
  }

  /** `expand_ids(controller, ids)`: one GET per ID through the controller,
      in order, stopping at the first failure. The IDs after a failing one
      are never fetched. */
  method ExpandIds(controller: Controller, ids: seq<string>) returns (r: Result<seq<Value>, Error>)
    modifies controller.api
    ensures controller.api.token == old(controller.api.token)
    ensures var fetch := Fetcher(controller.api.server, controller.api.Prefix(), controller.api.token, controller.url);
      && r == Expand(fetch, ids)
      && controller.api.sent == old(controller.api.sent) +
           GetRequests(controller.api.Prefix(), controller.url, controller.api.token, ids[..Attempts(fetch, ids)])
    ensures ids == [] ==> r == Ok([]) && controller.api.sent == old(controller.api.sent)
  {
    var api := controller.api;
    ghost var fetch := Fetcher(api.server, api.Prefix(), api.token, controller.url);
    ghost var prefix, token := api.Prefix(), api.token;
    var found: seq<Value> := [];
    var i := 0;
    while i < |ids|
      invariant 0 <= i <= |ids|
      invariant api.token == token
      invariant i <= FirstFailure(fetch, ids)
      invariant found == DataOf(fetch, ids[..i])
      invariant api.sent == old(api.sent) + GetRequests(prefix, controller.url, token, ids[..i])
    {
      var res := controller.Call(Get, ids[i], NoPayload);
      FetcherApplied(api.server, prefix, token, controller.url, ids[i]);
      assert ids[..i + 1] == ids[..i] + [ids[i]];
      assert GetRequests(prefix, controller.url, token, ids[..i + 1])
        == GetRequests(prefix, controller.url, token, ids[..i]) + [GetRequest(prefix, controller.url, token, ids[i])];
      if res.status == BadRequest {
        return Err(PartialExpansion(found, ids[i], res));
      }
      if RaisesForStatus(res.status) {
        return Err(HttpError(res.status));
      }
      if res.data.None? {
        return Err(MissingKey("data"));
      }
      found := found + [res.data.value];
      i := i + 1;
    }
    assert ids[..i] == ids;
    return Ok(found);
  }
}

=== FILE: values.dfy ===
/** Values exchanged with the phpIPAM service: the decoded JSON bodies, the
    records (dictionaries) they hold, and the keys a catalog is built from. */
module Values {

  datatype Option<+T> = None | Some(value: T)

  datatype Result<+T, +E> = Ok(value: T) | Err(error: E)

  /** A decoded JSON value, plus `Tuple`, which never comes from JSON but is
      what a multi-field key getter builds. Floating-point numbers are not
      modelled. */
  datatype Value =
    | Null
    | Bool(b: bool)
    | Num(n: int)
    | Str(s: string)
    | List(items: seq<Value>)
    | Dict(fields: map<string, Value>)
    | Tuple(elems: seq<Value>)

  /** One phpIPAM entity (device, subnet, address, rack, ...). */
  type Record = map<string, Value>

  /** Whether a value may be used as a dictionary key: lists and
      dictionaries may not, a tuple may when all of its elements may. */
  predicate Hashable(v: Value)
  {
    match v
    case List(_) => false
    case Dict(_) => false
    case Tuple(es) => forall i :: 0 <= i < |es| ==> Hashable(es[i])
    case _ => true
  }

  /** The records held by a JSON list of objects, or None when the value is
      anything else. */
  function AsRecords(v: Value): (r: Option<seq<Record>>)
    ensures r.Some? <==> v.List? && forall i :: 0 <= i < |v.items| ==> v.items[i].Dict?
    ensures r.Some? ==>
      |r.value| == |v.items| && forall i :: 0 <= i < |v.items| ==> r.value[i] == v.items[i].fields
  {
    if v.List? && forall i :: 0 <= i < |v.items| ==> v.items[i].Dict? then
      Some(seq(|v.items|, i requires 0 <= i < |v.items| => v.items[i].fields))
    else
      None
  }
}
